=== FILE: README.md ===
# zcfan fan-level engine in Dafny

This project models the decision core of zcfan, a ThinkPad fan daemon. Once a
second the daemon reads every hwmon temperature sensor and takes the
maximum. A table of four rules (maximum, medium, low, off) maps that maximum
to a fan level, which is written to `/proc/acpi/ibm/fan`. Two kinds of
hysteresis keep the level from flapping:

- a degree margin (`temp_hysteresis`) subtracted from the current rule's threshold and from every cooler rule's;
- a dwell counter (`tick_penalty`) that pins a newly entered rule for `tick_hysteresis` = 3 calls before a cooler rule is considered.

The kernel's fan watchdog is kept alive with `watchdog <secs>` writes.
A resume from suspend is detected by comparing `CLOCK_MONOTONIC` with
`CLOCK_BOOTTIME`, and the level is then written again.

Modules:

- `Maybe`: the option type.
- `Clock`: timestamps and `timespec_diff_ns`.
- `Sensors`: the `TEMP_INVALID`/`TEMP_MIN` sentinels, C-truncating `MILLIC_TO_C`, the max-fold of `get_max_temp` and the sensor-name tests.
- `Rules`: the rule table, the match test and `Scan`, the loop of `set_fan_level` as a function, with lemmas about what it picks.
- `Decision`: one call of `set_fan_level` as `Step` over an explicit engine state, with lemmas on sequences of calls.
- `Sink`: the control file as a class with a command log, the `last_watchdog_ping` it refreshes, and the decimal text of a timeout.
- `Suspend`: `detect_suspend` as a class holding the two previous clock readings.
- `Watchdog`: the `watchdog_secs` range check and the refresh test.
- `Engine`: class `FanEngine`. Its `SetFanLevel` runs the scan loop on `current_rule` and `tick_penalty` and is proved equal to `Step`.
- `Daemon`: class `Daemon`, covering `maybe_ping_watchdog`, one tick of the main loop, arming at start-up and the shutdown writes.

Clock readings, sensor readings and the controller's answer to each write are
parameters. A `SinkResponse` says whether a write succeeded and what
`CLOCK_MONOTONIC` read afterwards.

Points where the code's behaviour is easy to misread:

- A rule matches when `threshold < penalty || threshold - penalty < max_temp`. The first disjunct is kept. It spares C the overflowing subtraction for the `TEMP_MIN` sentinel, and with unbounded integers it changes the result for small thresholds (`Rules.Matches`).
- The watchdog test compares whole seconds (`tv_sec`), so a refresh can come up to a second before `watchdog_secs - 2` real seconds have passed (`Watchdog.PingCanComeEarly`).
- An invalid reading writes the literal `full-speed`, even when start-up replaced the maximum rule's token with `7` (`Decision.InvalidWriteIgnoresFallback`).
- The watchdog-path assertion that a rule exists never fails, for any `temp_hysteresis`. An invalid first reading already exits in `get_max_temp`. A valid reading with no current rule applies no hysteresis, so the `TEMP_MIN` sentinel matches. A rule once current is never cleared (`Decision.ValidReadingSelectsRule`, `Daemon.Daemon.Tick`). `maybe_ping_watchdog` on its own still has the abort outcome.
- The range check accepts `watchdog_secs = 2`. The refresh margin `watchdog_secs - 2` can then be 0, not strictly positive as the comment above the check says.
- `detect_suspend` decides "first call" by a zero monotonic baseline, not by a flag. This is modelled as such.

## Model

| member | source | states |
|---|---|---|
| `Clock.DiffNs` | zcfan.c:86-90 | the difference is end minus start, both counted in nanoseconds |
| `Clock.DiffNsChains` | zcfan.c:86-90 | differences compose (a→b plus b→c is a→c) and are antisymmetric |
| `Sensors.MillicToC` | zcfan.c:14 | the conversion truncates toward zero: result and input have the same sign and differ by less than one degree's worth of millidegrees |
| `Sensors.MaxFold` | zcfan.c:227-231 | the running maximum is at least every reading, and is either one of them or `TEMP_INVALID` |
| `Sensors.MaxFoldIsMaximum` | zcfan.c:227-231 | the fold from `TEMP_INVALID` is an upper bound of every reading and equal to one of them; it is `TEMP_INVALID` exactly when every reading is |
| `Sensors.MaxTemp` | zcfan.c:226-240 | a result other than `TEMP_INVALID` is the conversion of some valid reading, and no valid reading converts to more |
| `Sensors.MillicToCMonotone` | zcfan.c:14 | the truncating conversion preserves order |
| `Sensors.MaxTempMeaning` | zcfan.c:226-240 | the result is `TEMP_INVALID` iff no sensor gave a reading (zero sensors included), else the largest reading converted, within ±2147483 degrees |
| `Sensors.GetMaxTemp` | zcfan.c:226-240 | the loop computes the same value, and returns the marker iff all readings are the marker |
| `Sensors.HasSubstring` | zcfan.c:169 | true iff the pattern occurs at some position of the string |
| `Sensors.IsTempInputName` | zcfan.c:168-170 | a sensor file is taken iff its name starts with "temp" and contains "_input", necessarily after that prefix |
| `Sensors.NameEnd` | zcfan.c:139 | the cut point is the first newline or NUL, or the end |
| `Sensors.SensorName` | zcfan.c:133-139 | the compared name is a prefix of the file of at most 255 characters, free of newline and NUL, cut exactly at the first of them |
| `Sensors.IsSensorNameIgnored` | zcfan.c:129-145 | a sensor is ignored iff its name file was read, is non-empty, and its cut name equals an ignore-list entry |
| `Rules.DefaultRulesAreTable` | zcfan.c:51-63 | the compiled-in table has four rules with the `TEMP_MIN` sentinel last, in strictly descending thresholds |
| `Rules.WithFullSpeedFallback` | zcfan.c:450-454 | without "full-speed" support only the maximum rule's token changes, to "7"; thresholds and names stay |
| `Rules.Scan` | zcfan.c:300-323 | a match found from index i lies at or after i and inside the table |
| `Rules.Matches` | zcfan.c:311-312 | for a non-negative temperature the test is the plain `threshold - penalty < max_temp`; the `TEMP_MIN` sentinel matches whenever the penalty is above `TEMP_MIN` |
| `Rules.MatchesMonotone` | zcfan.c:311-312 | a larger penalty or a higher temperature never unmatches a rule |
| `Rules.ScanAll` | zcfan.c:300-326 | a match is an index into the table; the scan stops at the current rule only while tick penalty remains |
| `Rules.ScanMeaningFrom` | zcfan.c:300-323 | the scan from any point reached with the right penalty answers as `ScanMeaning` says |
| `Rules.ScanMeaning` | zcfan.c:300-323 | the scan picks the first rule that matches with the penalty of its position (hysteresis from the current rule down); it stops at the current rule iff the tick penalty remains and no hotter rule matches; it finds nothing iff no rule matches or blocks |
| `Rules.NeverExhausted` | zcfan.c:311-326 | with the `TEMP_MIN` sentinel last and `temp_hysteresis > TEMP_MIN`, "No threshold matched?" is unreachable |
| `Rules.ExhaustedWithExtremeHysteresis` | zcfan.c:311-326 | with `temp_hysteresis = INT_MIN`, "off" current and 0 degrees, the scan does run off the table |
| `Rules.CoolingNeedsBothTiers` | zcfan.c:303-312 | a cooler rule is chosen only with zero tick penalty and a temperature at least the hysteresis below the current threshold |
| `Rules.HeatingIsImmediate` | zcfan.c:300-319 | a hotter rule whose plain threshold is exceeded is chosen (or one hotter) whatever the tick penalty |
| `Rules.ChosenRuleIsStable` | zcfan.c:300-321 | with non-negative hysteresis, a rule chosen at temperature t is blocked on or matched again at t once current |
| `Rules.FirstChoiceIsBand` | zcfan.c:51-63 | with descending thresholds and no current rule, rule k is chosen iff it matches and the rule above it does not |
| `Decision.TickDown` | zcfan.c:291-293 | the dwell counter drops by one when positive and never below zero |
| `Decision.Step` | zcfan.c:287-327 | every call counts the tick penalty down first, and a set resets it to 3; the status is SET iff `current_rule` changes, and a SET writes that rule's token; an invalid reading returns INVALID, writes "full-speed" and keeps `current_rule`; nothing else is written |
| `Decision.InvalidWriteIgnoresFallback` | zcfan.c:295-298 | the invalid-reading write is "full-speed" even where the maximum rule's token became "7" |
| `Decision.ValidReadingSelectsRule` | zcfan.c:295-326 | after any valid reading a current rule exists, for every hysteresis; with `temp_hysteresis > TEMP_MIN` the status is also not INVALID |
| `Decision.CoolingWaitsForDwell` | zcfan.c:289-312 | a move to a cooler rule happens only when `tick_penalty` was at most 1 before the call, and the current rule failed its hysteresis test |
| `Decision.SetSettles` | zcfan.c:313-321 | after a SET at temperature t the engine is settled at t |
| `Decision.SettledIsQuiet` | zcfan.c:313-321 | a settled engine fed the same temperature returns NOT_SET, writes nothing and stays settled |
| `Decision.ConstantTemperatureIsQuiet` | zcfan.c:300-321 | any number of calls at a constant temperature after settling return NOT_SET without writes |
| `Decision.DefaultCoolingTrace` | zcfan.c:287-327 | default table: 85 sets "medium"; 65 is held twice by the tick penalty; 75 stays "medium" by the 10-degree hysteresis; 65 then sets "low" |
| `Decision.InvalidReadingKeepsRuleTrace` | zcfan.c:295-307 | an invalid reading between two valid ones keeps "maximum" and the counting-down penalty |
| `Sink.DecimalText` | zcfan.c:273-277 | the timeout text is one to three digits for values below 1000, fitting the buffer |
| `Sink.DecimalRoundTrip` | zcfan.c:276 | the digits written denote exactly the timeout |
| `Sink.ControlSink.constructor` | zcfan.c:65 | no file open, nothing written, last ping at zero |
| `Sink.ControlSink.WriteFan` | zcfan.c:246-271 | every call is logged; success keeps the file open and sets the last ping to the clock after the write; failure closes it and keeps the ping |
| `Sink.ControlSink.WriteWatchdogTimeout` | zcfan.c:273-279 | writes "watchdog" with the decimal timeout |
| `Sink.ControlSink.Close` | zcfan.c:479-481 | the file is closed if open; nothing is written and the ping time stays |
| `Suspend.Detect` | zcfan.c:99-113 | a resume is reported iff there is a baseline and boot time outran monotonic time by more than 0.2 s |
| `Suspend.DetectExamples` | zcfan.c:92-114 | equal 1 s advances: no resume; 301 s of boot time over 1 s monotonic: resume; no baseline: none |
| `Suspend.SuspendDetector.constructor` | zcfan.c:93 | both baselines start at zero |
| `Suspend.SuspendDetector.DetectSuspend` | zcfan.c:92-114 | answers `Detect` on the old baseline and always stores the new readings |
| `Watchdog.CheckWatchdogSecs` | zcfan.c:405-412 | accepted iff 2 ≤ secs ≤ 120; an accepted value has a non-negative margin and fits three digits |
| `Watchdog.PingDue` | zcfan.c:343-346 | a due refresh means more than secs − 3 real seconds passed, a not-due one fewer than secs − 2 |
| `Watchdog.PingCanComeEarly` | zcfan.c:343-346 | 117 s and a nanosecond after a ping, a 120 s watchdog is already refreshed |
| `Engine.FanEngine.constructor` | zcfan.c:68-70 | no current rule, tick penalty 3 |
| `Engine.FanEngine.SetFanLevel` | zcfan.c:287-327 | the new `current_rule`/`tick_penalty`, the status and the single level write (if any) are those of `Step` on the converted maximum |
| `Daemon.Daemon.constructor` | zcfan.c:445-454 | the engine gets the table after the "7" fallback, no current rule, penalty 3; nothing written yet |
| `Daemon.Daemon.ArmWatchdog` | zcfan.c:456 | writes the configured timeout; the file stays open iff the write succeeded; a failure is fatal at start-up |
| `Daemon.Daemon.MaybePingWatchdog` | zcfan.c:330-351 | aborts iff no current rule; otherwise a detected resume rewrites the current token first, then "watchdog" is written iff whole seconds since the last successful write (rewrite included) reach `watchdog_secs - 2`; a failed first-tick write stops it |
| `Daemon.Daemon.Tick` | zcfan.c:460-470 | an invalid first reading exits with nothing written; otherwise the engine takes the `Step` state; a failed level write on the first tick exits; a tick that continues returns `Step`'s status and leaves a current rule; a tick after the first never ends the process; a SET tick writes only the level, takes its ping time and open flag from that write and leaves the suspend baseline alone; the tick never aborts |
| `Daemon.Daemon.Shutdown` | zcfan.c:472-481 | writes "level auto", then "watchdog 0" only if that succeeded; the last ping is that of the last successful write; closes the file |

## Left out

- Enumerating `/sys/class/hwmon`, opening and caching sensor descriptors, and `lseek`/`read`/`sscanf` of readings are not modelled: readings arrive as a sequence of C `int` values, `TEMP_INVALID` where a read failed. The `MAX_SENSOR_FDS` and `MAX_IGNORED_SENSORS` capacity checks are left out too.
- Opening `/proc/acpi/ibm/fan`, `setvbuf`, `fprintf` and `fflush` are reduced to a success flag per write. The log records every `write_fan` call, including those whose open failed.
- The configuration file tokenizer is not modelled. Thresholds and tokens arrive as any four-rule table whose last rule is the `TEMP_MIN` sentinel, and the 15-character token truncation is not modelled. Only the `watchdog_secs` range check is modelled.
- The scan of the fan file for "full-speed" support is a boolean parameter.
- Signals, the `run` flag, `sleep(1)` and the loop itself are not modelled; only one tick and the shutdown writes are. A completed `Tick` always clears `first_tick`, whereas the source keeps it set when a signal arrives during the first tick, so that a failed shutdown write then exits with 1; the model's `Shutdown` returns 0 in that case.
- `printf`/`err` logging is not modelled.
- A failing `clock_gettime` or `setvbuf` aborts through `expect` in the source and is not modelled.
- Integers are unbounded. The C overflow of `threshold - temp_penalty` with an extreme configured `temp_hysteresis`, and the `int64_t` arithmetic of `timespec_diff_ns`, are not modelled.
- Sensor names are sequences of characters rather than bytes.
- `Daemon.Daemon.Tick`: states the engine state, the status, that only the first tick can end the process and when it does, and the whole sink and detector state after a SET tick; on a tick that is not SET, the writes, the last ping, the open flag and the detector baseline are stated by `Daemon.Daemon.MaybePingWatchdog` rather than repeated here.

=== FILE: clock.dfy ===
/**
 * Timestamps as returned by `clock_gettime`, and the signed difference
 * between two of them in nanoseconds (`timespec_diff_ns`, zcfan.c:86-90).
 * The C code computes in `int64_t`; here integers are unbounded, which is
 * the same for every pair of real clock readings.
 */
module Clock {
  /** One second in nanoseconds (`NS_IN_SEC`). */
  const NsInSec: int := 1_000_000_000

  /** A `struct timespec`: whole seconds and nanoseconds. */
  datatype Timespec = Timespec(sec: int, nsec: int)

  /** The all-zero timestamp that static storage starts with. */
  const Zero: Timespec := Timespec(0, 0)

  /** The value a clock reading takes as a count of nanoseconds. */
  function TotalNs(t: Timespec): int {
    t.sec * NsInSec + t.nsec
  }

  /** `timespec_diff_ns(start, end)`: nanoseconds from `start` to `end`. */
  function DiffNs(start: Timespec, end: Timespec): (d: int)
    ensures d == TotalNs(end) - TotalNs(start)
  {
    (end.sec - start.sec) * NsInSec + (end.nsec - start.nsec)
  }

  /** Differences chain: going from a to b and then to c is going from a to c. */
  lemma DiffNsChains(a: Timespec, b: Timespec, c: Timespec)
    ensures DiffNs(a, b) + DiffNs(b, c) == DiffNs(a, c)
    ensures DiffNs(a, b) == -DiffNs(b, a)
  {
  }
}

=== FILE: daemon.dfy ===
/**
 * The daemon around the engine: the watchdog keep-alive with its resume
 * rewrite (`maybe_ping_watchdog`, zcfan.c:330-351), one tick of the main
 * loop (zcfan.c:460-470), arming at start-up (zcfan.c:445-456) and the
 * shutdown writes (zcfan.c:472-481). A fatal `exit(1)` on the first tick
 * and an `abort()` from `expect` are outcomes, not process termination.
 */
module Daemon {
  import opened Maybe
  import opened Clock
  import opened Sensors
  import opened Rules
  import opened Decision
  import opened Sink
  import opened Suspend
  import opened Watchdog
  import opened Engine

  /**
   * How a tick ends: normally with the engine's status, or by `exit(1)` on
   * the first tick. The `abort()` of `expect(current_rule)` cannot happen
   * in a tick: `Tick` proves a rule is current whenever it pings.
   */
  datatype TickOutcome = Continue(status: FanStatus) | FirstTickFailure

  /** How `maybe_ping_watchdog` ends: normally, by `exit(1)` after a failed first-tick write, or by `abort()`. */
  datatype PingOutcome = PingDone | PingFatal | PingAborted

  /** The clock readings and controller answers one tick consumes. */
  datatype TickInputs = TickInputs(
    readings: seq<int>,       // one value per sensor file, `TEMP_INVALID` where reading failed
    level: SinkResponse,      // answer to the level write of `set_fan_level`, if any
    now: Timespec,            // `CLOCK_MONOTONIC` at the start of `maybe_ping_watchdog`
    monotonic: Timespec,      // the two readings `detect_suspend` takes
    boottime: Timespec,
    rewrite: SinkResponse,    // answer to the level rewrite after a resume
    ping: SinkResponse)       // answer to the "watchdog" write

  /** The level rewrite a detected resume causes. */
  function RewriteWrites(resumed: bool, level: string): seq<Command> {
    if resumed then [Command("level", level)] else []
  }

  /** The refresh write, when one is due. */
  function PingWrites(due: bool, watchdogSecs: nat): seq<Command> {
    if due then [Command("watchdog", DecimalText(watchdogSecs))] else []
  }

  class Daemon {
    const engine: FanEngine
    const sink: ControlSink
    const detector: SuspendDetector
    const watchdogSecs: nat
    /** `first_tick`: failures are fatal until the first tick has completed. */
    var firstTick: bool

    ghost predicate Valid()
      reads this, engine
    {
      engine.sink == sink && engine.Valid() && IsRuleTable(engine.config.rules) &&
      ValidWatchdogSecs(watchdogSecs) &&
      (!firstTick ==> engine.current.Some?)
    }

    /**
     * Start-up once the configuration is read and accepted: the rule table
     * after the "full-speed" fallback, an engine with no rule yet, and
     * zeroed clocks.
     */
    constructor(rules: seq<Rule>, tempHysteresis: int, watchdogSecs: nat, fullSpeedSupported: bool)
      requires IsRuleTable(rules) && ValidWatchdogSecs(watchdogSecs)
      ensures Valid() && firstTick
      ensures engine.config == Config(WithFullSpeedFallback(rules, fullSpeedSupported), tempHysteresis)
      ensures engine.State() == InitialState
      ensures sink.log == [] && sink.lastPing == Zero && !sink.isOpen
      ensures detector.monotonicPrev == Zero && detector.boottimePrev == Zero
      ensures this.watchdogSecs == watchdogSecs
      ensures fresh(engine) && fresh(sink) && fresh(detector)
    {
      var s := new ControlSink();
      sink := s;
      engine := new FanEngine(Config(WithFullSpeedFallback(rules, fullSpeedSupported), tempHysteresis), s);
      detector := new SuspendDetector();
      this.watchdogSecs := watchdogSecs;
      firstTick := true;
    }

    /** Arming the watchdog before the loop; a failed write is fatal (still the first tick). */
    method ArmWatchdog(resp: SinkResponse) returns (fatal: bool)
      requires Valid() && firstTick
      modifies sink
      ensures Valid()
      ensures fatal == !resp.ok
      ensures sink.isOpen == resp.ok
      ensures sink.log == old(sink.log) + [Command("watchdog", DecimalText(watchdogSecs))]
      ensures sink.lastPing == if resp.ok then resp.at else old(sink.lastPing)
    {
      sink.WriteWatchdogTimeout(watchdogSecs, resp);
      fatal := firstTick && !resp.ok;
    }

    /**
     * `maybe_ping_watchdog`: aborts if no rule was ever set; otherwise
     * rewrites the current level when a resume is detected, then refreshes
     * the watchdog if the whole seconds since the last successful write,
     * the rewrite included, reach `watchdog_secs - 2`. On the first tick a
     * failed write ends the process on the spot.
     */
    method MaybePingWatchdog(now: Timespec, monotonic: Timespec, boottime: Timespec,
                             rewrite: SinkResponse, ping: SinkResponse) returns (outcome: PingOutcome)
      requires Valid()
      modifies sink, detector
      ensures Valid()
      ensures outcome == PingAborted <==> engine.current.None?
      ensures outcome == PingAborted ==> unchanged(sink) && unchanged(detector)
      ensures outcome != PingAborted ==>
        var resumed := Detect(old(detector.monotonicPrev), old(detector.boottimePrev), monotonic, boottime) == ResumeDetected;
        var stopped := firstTick && resumed && !rewrite.ok;
        var afterRewrite := if resumed && rewrite.ok then rewrite.at else old(sink.lastPing);
        var due := !stopped && PingDue(now, afterRewrite, watchdogSecs);
        detector.monotonicPrev == monotonic && detector.boottimePrev == boottime &&
        sink.log == old(sink.log) + RewriteWrites(resumed, engine.config.rules[engine.current.value].level) + PingWrites(due, watchdogSecs) &&
        sink.lastPing == (if due && ping.ok then ping.at else afterRewrite) &&
        sink.isOpen == (if due then ping.ok else if resumed then rewrite.ok else old(sink.isOpen)) &&
        outcome == if stopped || (due && firstTick && !ping.ok) then PingFatal else PingDone
    {
      if engine.current.None? {
        return PingAborted;
      }
      var rule := engine.config.rules[engine.current.value];
      var resume := detector.DetectSuspend(monotonic, boottime);
      if resume == ResumeDetected {
        // some models fall back to "auto" across a resume and need the level again
        var ok := sink.WriteFan("level", rule.level, rewrite);
        if firstTick && !ok {
          return PingFatal;
        }
      }
      if now.sec - sink.lastPing.sec < watchdogSecs - GracePeriodSecs {
        return PingDone;
      }
      // refreshed with "watchdog", not by rewriting the level, which can spin the fan up
      sink.WriteWatchdogTimeout(watchdogSecs, ping);
      return if firstTick && !ping.ok then PingFatal else PingDone;
    }

    /**
     * One pass of the main loop: decide, and refresh the watchdog unless a
     * level was just set. On the first tick an invalid temperature or a
     * failed write ends the process. The watchdog path never aborts: the
     * first tick has a valid reading, which always selects a rule, and a
     * rule once selected is never cleared.
     */
    method Tick(inputs: TickInputs) returns (outcome: TickOutcome)
      requires Valid() && AllCInts(inputs.readings)
      modifies this, engine, sink, detector
      ensures Valid()
      ensures old(firstTick) && MaxTemp(inputs.readings) == TempInvalid ==>
        outcome == FirstTickFailure && engine.State() == old(engine.State()) && sink.log == old(sink.log)
      ensures !(old(firstTick) && MaxTemp(inputs.readings) == TempInvalid) ==>
        engine.State() == Step(engine.config, old(engine.State()), MaxTemp(inputs.readings)).state
      ensures outcome == Continue(Set) ==>
        sink.log == old(sink.log) + LevelWrites(Step(engine.config, old(engine.State()), MaxTemp(inputs.readings)).write)
      ensures (old(firstTick) && MaxTemp(inputs.readings) != TempInvalid &&
               Step(engine.config, old(engine.State()), MaxTemp(inputs.readings)).write.Some? && !inputs.level.ok) ==>
        outcome == FirstTickFailure
      ensures outcome.Continue? ==>
        outcome.status == Step(engine.config, old(engine.State()), MaxTemp(inputs.readings)).status
      ensures outcome.Continue? ==> !firstTick && engine.current.Some?
      ensures !old(firstTick) ==> outcome.Continue?
      ensures outcome == Continue(Set) ==>
        sink.lastPing == (if inputs.level.ok then inputs.level.at else old(sink.lastPing)) &&
        sink.isOpen == inputs.level.ok &&
        detector.monotonicPrev == old(detector.monotonicPrev) && detector.boottimePrev == old(detector.boottimePrev)
    {
      var t := GetMaxTemp(inputs.readings);
      if firstTick && t == TempInvalid {
        // get_max_temp: "Couldn't find any valid temperature" on the first run
        return FirstTickFailure;
      }
      ghost var before := engine.State();
      var logged := |sink.log|;
      var status := engine.SetFanLevel(inputs.readings, inputs.level);
      if t != TempInvalid {
        ValidReadingSelectsRule(engine.config, before, t);
      }
      if firstTick && |sink.log| > logged && !inputs.level.ok {
        return FirstTickFailure;
      }
      if status != Set {
        var ping := MaybePingWatchdog(inputs.now, inputs.monotonic, inputs.boottime, inputs.rewrite, inputs.ping);
        // `expect(current_rule)` holds here
        assert ping != PingAborted;
        if ping == PingFatal {
          return FirstTickFailure;
        }
      }
      firstTick := false;
      return Continue(status);
    }

    /**
     * Shutdown: hand the fan back to the firmware with "level auto" and,
     * only if that worked, disarm the watchdog with a zero timeout; the
     * file is closed either way. A failed write still ends the process
     * with status 1 if the first tick never completed.
     */
    method Shutdown(auto: SinkResponse, disarm: SinkResponse) returns (exitCode: int)
      requires Valid()
      modifies sink
      ensures sink.log == old(sink.log) + [Command("level", "auto")] + (if auto.ok then [Command("watchdog", "0")] else [])
      ensures !sink.isOpen
      ensures sink.lastPing == if auto.ok && disarm.ok then disarm.at else if auto.ok then auto.at else old(sink.lastPing)
      ensures exitCode == if firstTick && !(auto.ok && disarm.ok) then 1 else 0
    {
      var ok := sink.WriteFan("level", "auto", auto);
      if !ok {
        sink.Close();
        return if firstTick then 1 else 0;
      }
      sink.WriteWatchdogTimeout(0, disarm);
      sink.Close();
      return if firstTick && !disarm.ok then 1 else 0;
    }
  }
}

=== FILE: decision.dfy ===
/**
 * One call of `set_fan_level` (zcfan.c:287-327) as a function of the engine
 * state and the temperature `get_max_temp` returned: the new state, the
 * status it returns and the level token it writes, if any. The class
 * `Engine.FanEngine` performs exactly these steps on its fields.
 */
module Decision {
  import opened Maybe
  import opened Sensors
  import opened Rules

  /** `tick_hysteresis`: the ticks a newly entered rule is held before a cooler one is considered. */
  const TickHysteresis: nat := 3

  /** The fixed inputs of the engine: the rule table and `temp_hysteresis`. */
  datatype Config = Config(rules: seq<Rule>, tempHysteresis: int)

  /** The compiled-in configuration: the default table and 10 degrees of hysteresis. */
  const DefaultConfig: Config := Config(DefaultRules, 10)

  /** `current_rule` (an index, or none) and the persistent `tick_penalty`. */
  datatype EngineState = EngineState(current: Option<nat>, tickPenalty: nat)

  /** The state at start-up: no rule yet, and `tick_penalty = tick_hysteresis`. */
  const InitialState: EngineState := EngineState(None, TickHysteresis)

  /** `enum set_fan_status`. */
  datatype FanStatus = NotSet | Set | Invalid

  /** The state after a call, its status, and the token it passed to `write_fan_level`, if it did. */
  datatype StepResult = StepResult(state: EngineState, status: FanStatus, write: Option<string>)

  /** The dwell counter counts down by one per call and stops at zero. */
  function TickDown(n: nat): (m: nat)
    ensures n > 0 ==> m + 1 == n
    ensures n == 0 ==> m == 0
  {
    if n > 0 then n - 1 else 0
  }

  /** The current rule, when there is one, is an index into the table. */
  predicate InTable(cfg: Config, s: EngineState) {
    s.current.Some? ==> s.current.value < |cfg.rules|
  }

  /** One call of `set_fan_level` with the temperature `t`. */
  function Step(cfg: Config, s: EngineState, t: int): (r: StepResult)
    ensures r.state.tickPenalty == if r.status == Set then TickHysteresis else TickDown(s.tickPenalty)
    ensures r.status == Set <==> r.state.current != s.current
    ensures r.write.Some? <==> r.status == Set || t == TempInvalid
    ensures t == TempInvalid ==> r.status == Invalid && r.write == Some("full-speed") && r.state.current == s.current
    ensures r.status == Set ==>
      r.state.current.Some? && r.state.current.value < |cfg.rules| &&
      r.write == Some(cfg.rules[r.state.current.value].level)
    ensures InTable(cfg, s) ==> InTable(cfg, r.state)
  {
    var tickPenalty := TickDown(s.tickPenalty);
    if t == TempInvalid then
      StepResult(EngineState(s.current, tickPenalty), Invalid, Some("full-speed"))
    else
      match ScanAll(cfg.rules, s.current, tickPenalty, cfg.tempHysteresis, t)
      case Blocked => StepResult(EngineState(s.current, tickPenalty), NotSet, None)
      case Exhausted => StepResult(EngineState(s.current, tickPenalty), Invalid, None)
      case Matched(k) =>
        if s.current == Some(k) then StepResult(EngineState(s.current, tickPenalty), NotSet, None)
        else StepResult(EngineState(Some(k), TickHysteresis), Set, Some(cfg.rules[k].level))
  }

  /**
   * The fallback for an invalid reading is the literal "full-speed", not
   * the maximum rule's token: on a controller without "full-speed", where
   * start-up switched that rule to "7", the two differ.
   */
  lemma InvalidWriteIgnoresFallback(rules: seq<Rule>, hyst: int, s: EngineState)
    requires |rules| == NumLevels
    ensures var cfg := Config(WithFullSpeedFallback(rules, false), hyst);
      Step(cfg, s, TempInvalid).write == Some("full-speed") &&
      Step(cfg, s, TempInvalid).write != Some(cfg.rules[FanMax].level)
  {
  }

  /** The results of successive calls, one per temperature. */
  function Trace(cfg: Config, s: EngineState, temps: seq<int>): (rs: seq<StepResult>)
    ensures |rs| == |temps|
    decreases |temps|
  {
    if |temps| == 0 then []
    else
      var r := Step(cfg, s, temps[0]);
      [r] + Trace(cfg, r.state, temps[1..])
  }

  /** The table is one the daemon runs with, and the sentinel can always match. */
  predicate SentinelHolds(cfg: Config) {
    IsRuleTable(cfg.rules) && cfg.tempHysteresis > TempMin
  }

  /**
   * After any valid reading there is a current rule, whatever the
   * hysteresis: with no rule yet every penalty is 0 and the sentinel
   * matches, and a rule once current is never cleared. This is what
   * `expect(current_rule)` in the watchdog path relies on. With the
   * hysteresis above `TEMP_MIN` the call also never reports
   * `FAN_LEVEL_INVALID`: "No threshold matched?" is unreachable.
   */
  lemma ValidReadingSelectsRule(cfg: Config, s: EngineState, t: int)
    requires IsRuleTable(cfg.rules)
    requires t != TempInvalid
    ensures Step(cfg, s, t).state.current.Some?
    ensures SentinelHolds(cfg) ==> Step(cfg, s, t).status != Invalid
  {
    var tp := TickDown(s.tickPenalty);
    if s.current.None? {
      ScanMeaning(cfg.rules, None, tp, cfg.tempHysteresis, t, 0);
      assert MatchesAt(cfg.rules, None, cfg.tempHysteresis, t, FanOff);
    }
    if SentinelHolds(cfg) {
      NeverExhausted(cfg.rules, s.current, tp, cfg.tempHysteresis, t);
      ScanMeaning(cfg.rules, s.current, tp, cfg.tempHysteresis, t, 0);
    }
  }

  /**
   * A cooler rule is entered only on a call where the dwell counter runs
   * out: `tick_penalty` was at most 1 before the call's own decrement.
   */
  lemma CoolingWaitsForDwell(cfg: Config, s: EngineState, t: int, c: nat, k: nat)
    requires s.current == Some(c)
    requires Step(cfg, s, t).state.current == Some(k) && c < k
    ensures s.tickPenalty <= 1
    ensures !Matches(cfg.rules[c].threshold, cfg.tempHysteresis, t)
  {
    CoolingNeedsBothTiers(cfg.rules, c, TickDown(s.tickPenalty), cfg.tempHysteresis, t, k);
  }

  /**
   * The engine is settled at temperature `t`: with no tick penalty left the
   * scan would match the current rule itself.
   */
  ghost predicate Settled(cfg: Config, s: EngineState, t: int) {
    t != TempInvalid && s.current.Some? && ScanAll(cfg.rules, s.current, 0, cfg.tempHysteresis, t) == Matched(s.current.value)
  }

  /** A call that changes the rule leaves the engine settled at that temperature. */
  lemma SetSettles(cfg: Config, s: EngineState, t: int)
    requires cfg.tempHysteresis >= 0
    requires Step(cfg, s, t).status == Set
    ensures Settled(cfg, Step(cfg, s, t).state, t)
  {
    var k := Step(cfg, s, t).state.current.value;
    ChosenRuleIsStable(cfg.rules, s.current, TickDown(s.tickPenalty), cfg.tempHysteresis, t, k, 0);
  }

  /** A settled engine, fed the same temperature, reports `FAN_LEVEL_NOT_SET`, writes nothing and stays settled. */
  lemma SettledIsQuiet(cfg: Config, s: EngineState, t: int)
    requires Settled(cfg, s, t)
    ensures Step(cfg, s, t).status == NotSet
    ensures Step(cfg, s, t).write == None
    ensures Step(cfg, s, t).state.current == s.current
    ensures Settled(cfg, Step(cfg, s, t).state, t)
  {
    var c := s.current.value;
    var tp := TickDown(s.tickPenalty);
    ScanMeaning(cfg.rules, s.current, 0, cfg.tempHysteresis, t, c);
    assert Clear(cfg.rules, s.current, tp, cfg.tempHysteresis, t, c) by {
      forall j | 0 <= j < c
        ensures !MatchesAt(cfg.rules, s.current, cfg.tempHysteresis, t, j) && !BlocksAt(s.current, tp, j)
      {
        assert !MatchesAt(cfg.rules, s.current, cfg.tempHysteresis, t, j) && !BlocksAt(s.current, 0, j);
      }
    }
    ScanMeaning(cfg.rules, s.current, tp, cfg.tempHysteresis, t, c);
    if tp > 0 {
      assert ScanAll(cfg.rules, s.current, tp, cfg.tempHysteresis, t) == Blocked;
    } else {
      assert ScanAll(cfg.rules, s.current, tp, cfg.tempHysteresis, t) == Matched(c);
    }
  }

  /** Every call reported `FAN_LEVEL_NOT_SET` and wrote nothing. */
  predicate Quiet(rs: seq<StepResult>) {
    forall i :: 0 <= i < |rs| ==> rs[i].status == NotSet && rs[i].write == None
  }

  /**
   * Idempotence: once settled, any number of calls with the same
   * temperature return `FAN_LEVEL_NOT_SET` and write nothing.
   */
  lemma {:induction false} ConstantTemperatureIsQuiet(cfg: Config, s: EngineState, t: int, n: nat)
    requires Settled(cfg, s, t)
    ensures Quiet(Trace(cfg, s, seq(n, _ => t)))
    decreases n
  {
    if n > 0 {
      var temps := seq(n, _ => t);
      SettledIsQuiet(cfg, s, t);
      var s' := Step(cfg, s, t).state;
      ConstantTemperatureIsQuiet(cfg, s', t, n - 1);
      assert temps[1..] == seq(n - 1, _ => t);
      var rs := Trace(cfg, s, temps);
      var rest := Trace(cfg, s', seq(n - 1, _ => t));
      assert rs == [Step(cfg, s, t)] + rest;
      forall i | 0 <= i < n
        ensures rs[i].status == NotSet && rs[i].write == None
      {
        if i > 0 {
          assert rs[i] == rest[i - 1];
        }
      }
    }
  }

  /**
   * Under the default table: entering "medium" at 85 degrees, the rule is
   * held while the tick penalty lasts and, with the 10-degree hysteresis,
   * still at 75 degrees after it has run out; 65 degrees then moves it to
   * "low" at once.
   */
  lemma DefaultCoolingTrace()
    ensures var rs := Trace(DefaultConfig, InitialState, [85, 65, 65, 75, 65]);
      rs[0] == StepResult(EngineState(Some(FanMed), 3), Set, Some("4")) &&
      rs[1] == StepResult(EngineState(Some(FanMed), 2), NotSet, None) &&
      rs[2] == StepResult(EngineState(Some(FanMed), 1), NotSet, None) &&
      rs[3] == StepResult(EngineState(Some(FanMed), 0), NotSet, None) &&
      rs[4] == StepResult(EngineState(Some(FanLow), 3), Set, Some("1"))
  {
    var R, h := DefaultRules, 10;
    var s1 := EngineState(Some(FanMed), 3);
    var s2 := EngineState(Some(FanMed), 2);
    var s3 := EngineState(Some(FanMed), 1);
    var s4 := EngineState(Some(FanMed), 0);
    assert Scan(R, None, 2, h, 85, 1, 0) == Matched(1);
    assert Step(DefaultConfig, InitialState, 85).state == s1;
    assert Scan(R, Some(1), 2, h, 65, 1, 0) == Blocked;
    assert Step(DefaultConfig, s1, 65).state == s2;
    assert Scan(R, Some(1), 1, h, 65, 1, 0) == Blocked;
    assert Step(DefaultConfig, s2, 65).state == s3;
    assert Scan(R, Some(1), 0, h, 75, 1, 0) == Matched(1);
    assert Step(DefaultConfig, s3, 75).state == s4;
    assert Scan(R, Some(1), 0, h, 65, 2, h) == Matched(2);
    assert Scan(R, Some(1), 0, h, 65, 1, 0) == Matched(2);
    assert Step(DefaultConfig, s4, 65).state == EngineState(Some(FanLow), 3);
  }

  /**
   * An invalid reading in between writes "full-speed" and keeps the rule:
   * the next valid reading is judged from "maximum", still pinned by the
   * tick penalty that kept counting down.
   */
  lemma InvalidReadingKeepsRuleTrace()
    ensures var rs := Trace(DefaultConfig, InitialState, [95, TempInvalid, 75]);
      rs[0] == StepResult(EngineState(Some(FanMax), 3), Set, Some("full-speed")) &&
      rs[1] == StepResult(EngineState(Some(FanMax), 2), Invalid, Some("full-speed")) &&
      rs[2] == StepResult(EngineState(Some(FanMax), 1), NotSet, None)
  {
    var s1 := EngineState(Some(FanMax), 3);
    var s2 := EngineState(Some(FanMax), 2);
    assert Scan(DefaultRules, Some(0), 1, 10, 75, 0, 0) == Blocked;
    assert Step(DefaultConfig, InitialState, 95).state == s1;
    assert Step(DefaultConfig, s1, TempInvalid).state == s2;
    assert Step(DefaultConfig, s2, 75) == StepResult(EngineState(Some(FanMax), 1), NotSet, None);
    assert Trace(DefaultConfig, s2, [75]) == [Step(DefaultConfig, s2, 75)];
    assert [95, TempInvalid, 75][1..] == [TempInvalid, 75] && [TempInvalid, 75][1..] == [75];
  }
}

=== FILE: engine.dfy ===
/**
 * The fan-level decision engine as the daemon runs it: `current_rule` and
 * the function-static `tick_penalty` become fields, and `set_fan_level`
 * (zcfan.c:287-327) a method whose effect is exactly `Decision.Step` on
 * the temperature `get_max_temp` yields.
 */
module Engine {
  import opened Maybe
  import opened Sensors
  import opened Rules
  import opened Decision
  import opened Sink

  /** The commands the call adds to the control file's log. */
  function LevelWrites(write: Option<string>): seq<Command> {
    if write.Some? then [Command("level", write.value)] else []
  }

  class FanEngine {
    const config: Config
    const sink: ControlSink
    var current: Option<nat>
    var tickPenalty: nat

    function State(): EngineState
      reads this
    {
      EngineState(current, tickPenalty)
    }

    ghost predicate Valid()
      reads this
    {
      InTable(config, State())
    }

    constructor(config: Config, sink: ControlSink)
      ensures this.config == config && this.sink == sink
      ensures State() == InitialState && Valid()
    {
      this.config := config;
      this.sink := sink;
      current := None;
      tickPenalty := TickHysteresis;
    }

    /**
     * `set_fan_level`: one decision from the sensor readings; a level write,
     * when there is one, goes to the sink with the given response, and its
     * outcome does not change the decision.
     */
    method SetFanLevel(readings: seq<int>, resp: SinkResponse) returns (status: FanStatus)
      requires Valid() && AllCInts(readings)
      modifies this, sink
      ensures Valid()
      ensures Step(config, old(State()), MaxTemp(readings)).state == State()
      ensures Step(config, old(State()), MaxTemp(readings)).status == status
      ensures var write := Step(config, old(State()), MaxTemp(readings)).write;
        sink.log == old(sink.log) + LevelWrites(write) &&
        sink.lastPing == (if write.Some? && resp.ok then resp.at else old(sink.lastPing)) &&
        sink.isOpen == (if write.Some? then resp.ok else old(sink.isOpen))
    {
      var maxTemp := GetMaxTemp(readings);
      var tempPenalty := 0;
      if tickPenalty > 0 {
        tickPenalty := tickPenalty - 1;
      }

      if maxTemp == TempInvalid {
        var _ := sink.WriteFan("level", "full-speed", resp);
        return Invalid;
      }

      ghost var scan := ScanAll(config.rules, current, tickPenalty, config.tempHysteresis, maxTemp);
      var i := 0;
      while i < |config.rules|
        invariant 0 <= i <= |config.rules|
        invariant current == old(current) && tickPenalty == TickDown(old(tickPenalty))
        invariant sink.log == old(sink.log) && sink.lastPing == old(sink.lastPing) && sink.isOpen == old(sink.isOpen)
        invariant tempPenalty == if current.Some? && current.value < i then config.tempHysteresis else 0
        invariant scan == Scan(config.rules, current, tickPenalty, config.tempHysteresis, maxTemp, i, tempPenalty)
      {
        var rule := config.rules[i];
        if current == Some(i) {
          if tickPenalty > 0 {
            // the current rule is pinned until the tick penalty runs out
            return NotSet;
          }
          tempPenalty := config.tempHysteresis;
        }
        if rule.threshold < tempPenalty || rule.threshold - tempPenalty < maxTemp {
          if current != Some(i) {
            current := Some(i);
            tickPenalty := TickHysteresis;
            var _ := sink.WriteFan("level", rule.level, resp);
            return Set;
          }
          return NotSet;
        }
        i := i + 1;
      }
      // "No threshold matched?"
      return Invalid;
    }
  }
}

=== FILE: maybe.dfy ===
/** An optional value: a "none" that a C pointer would express with NULL. */
module Maybe {
  datatype Option<+T> = None | Some(value: T)
}

=== FILE: rules.dfy ===
/**
 * The rule table (zcfan.c:51-63) and the scan of `set_fan_level`
 * (zcfan.c:300-323) as a specification: which rule the scan stops at, for
 * a given current rule, remaining tick penalty, degree hysteresis and
 * temperature. `Scan` follows the loop step by step; `ScanMeaning`
 * characterises its answer without recursion.
 */
module Rules {
  import opened Maybe
  import opened Sensors

  /** A `struct Rule`: the token written after "level", the threshold in degrees, a label. */
  datatype Rule = Rule(level: string, threshold: int, name: string)

  /** The indices of `enum FanLevel`; `FAN_INVALID` is the number of rules. */
  const FanMax: nat := 0
  const FanMed: nat := 1
  const FanLow: nat := 2
  const FanOff: nat := 3
  const NumLevels: nat := 4

  /** The table as compiled in, hottest first; "off" carries the sentinel `TEMP_MIN`. */
  const DefaultRules: seq<Rule> := [
    Rule("full-speed", 90, "maximum"),
    Rule("4", 80, "medium"),
    Rule("1", 70, "low"),
    Rule("0", TempMin, "off")
  ]

  /**
   * A table the daemon can run with: four rules, the last one the "off"
   * sentinel. The configuration may change the other three thresholds and
   * tokens but never these.
   */
  predicate IsRuleTable(rules: seq<Rule>) {
    |rules| == NumLevels && rules[FanOff].threshold == TempMin
  }

  /** Hottest first, as the comment above the table asks; nothing enforces it. */
  ghost predicate Descending(rules: seq<Rule>) {
    forall i, j :: 0 <= i < j < |rules| ==> rules[j].threshold < rules[i].threshold
  }

  /** The compiled-in table is one the daemon runs with, and it is ordered hottest first. */
  lemma DefaultRulesAreTable()
    ensures IsRuleTable(DefaultRules) && Descending(DefaultRules)
    ensures DefaultRules[FanOff].level == "0" && DefaultRules[FanMax].level == "full-speed"
  {
  }

  /**
   * The start-up fallback of zcfan.c:450-454: when the controller does not
   * list "full-speed", the maximum rule writes level "7" instead.
   */
  function WithFullSpeedFallback(rules: seq<Rule>, fullSpeedSupported: bool): (r: seq<Rule>)
    requires |rules| == NumLevels
    ensures |r| == NumLevels
    ensures forall i :: 0 <= i < NumLevels ==> r[i].threshold == rules[i].threshold && r[i].name == rules[i].name
    ensures forall i :: 0 < i < NumLevels ==> r[i].level == rules[i].level
    ensures r[FanMax].level == if fullSpeedSupported then rules[FanMax].level else "7"
  {
    if fullSpeedSupported then rules else rules[FanMax := rules[FanMax].(level := "7")]
  }

  /** The match test of zcfan.c:311-312, with its `threshold < penalty` guard kept. */
  predicate Matches(threshold: int, penalty: int, maxTemp: int)
    ensures maxTemp >= 0 ==> (Matches(threshold, penalty, maxTemp) <==> maxTemp > threshold - penalty)
    ensures threshold == TempMin && penalty > TempMin ==> Matches(threshold, penalty, maxTemp)
  {
    threshold < penalty || threshold - penalty < maxTemp
  }

  /** A larger penalty and a higher temperature only make a rule easier to match. */
  lemma MatchesMonotone(threshold: int, p: int, q: int, t: int, u: int)
    requires p <= q && t <= u
    requires Matches(threshold, p, t)
    ensures Matches(threshold, q, u)
  {
  }

  /** The outcome of the scan: stopped at the pinned current rule, a match, or no match at all. */
  datatype ScanResult = Blocked | Matched(index: nat) | Exhausted

  /**
   * The loop of `set_fan_level` from index `i` on, `penalty` being the
   * value `temp_penalty` has when rule `i` is reached.
   */
  function Scan(rules: seq<Rule>, current: Option<nat>, tickPenalty: nat, hyst: int,
                maxTemp: int, i: nat, penalty: int): (r: ScanResult)
    requires i <= |rules|
    ensures r.Matched? ==> i <= r.index < |rules|
    ensures r.Blocked? ==> tickPenalty > 0 && current.Some? && i <= current.value < |rules|
    decreases |rules| - i
  {
    if i == |rules| then Exhausted
    else if current == Some(i) && tickPenalty > 0 then Blocked
    else
      var p := if current == Some(i) then hyst else penalty;
      if Matches(rules[i].threshold, p, maxTemp) then Matched(i)
      else Scan(rules, current, tickPenalty, hyst, maxTemp, i + 1, p)
  }

  /** The whole scan, as `set_fan_level` starts it. */
  function ScanAll(rules: seq<Rule>, current: Option<nat>, tickPenalty: nat, hyst: int, maxTemp: int): (r: ScanResult)
    ensures r.Matched? ==> r.index < |rules|
    ensures r.Blocked? ==> tickPenalty > 0 && current.Some? && current.value < |rules|
  {
    Scan(rules, current, tickPenalty, hyst, maxTemp, 0, 0)
  }

  /** The degree hysteresis applies to the current rule and every cooler one, never to a hotter one. */
  function PenaltyAt(current: Option<nat>, hyst: int, j: nat): int {
    if current.Some? && current.value <= j then hyst else 0
  }

  ghost predicate MatchesAt(rules: seq<Rule>, current: Option<nat>, hyst: int, t: int, j: nat)
    requires j < |rules|
  {
    Matches(rules[j].threshold, PenaltyAt(current, hyst, j), t)
  }

  /** The scan is stopped at rule `j`: it is current and the tick penalty has not run out. */
  predicate BlocksAt(current: Option<nat>, tickPenalty: nat, j: nat) {
    tickPenalty > 0 && current == Some(j)
  }

  /** The scan passes over every rule before `k`: none of them matches or blocks. */
  ghost predicate Clear(rules: seq<Rule>, current: Option<nat>, tickPenalty: nat, hyst: int, t: int, k: nat)
    requires k <= |rules|
  {
    forall j :: 0 <= j < k ==> !MatchesAt(rules, current, hyst, t, j) && !BlocksAt(current, tickPenalty, j)
  }

  lemma {:induction false} ScanMeaningFrom(rules: seq<Rule>, current: Option<nat>, tickPenalty: nat, hyst: int,
                                           t: int, i: nat, penalty: int, k: nat)
    requires i <= |rules|
    requires penalty == if current.Some? && current.value < i then hyst else 0
    requires Clear(rules, current, tickPenalty, hyst, t, i)
    ensures Scan(rules, current, tickPenalty, hyst, t, i, penalty) == Matched(k) <==>
      k < |rules| && Clear(rules, current, tickPenalty, hyst, t, k) &&
      !BlocksAt(current, tickPenalty, k) && MatchesAt(rules, current, hyst, t, k)
    ensures Scan(rules, current, tickPenalty, hyst, t, i, penalty) == Blocked <==>
      current.Some? && current.value < |rules| && tickPenalty > 0 &&
      Clear(rules, current, tickPenalty, hyst, t, current.value)
    ensures Scan(rules, current, tickPenalty, hyst, t, i, penalty) == Exhausted <==>
      Clear(rules, current, tickPenalty, hyst, t, |rules|)
    decreases |rules| - i
  {
    if i == |rules| {
      if k < |rules| { assert !MatchesAt(rules, current, hyst, t, k); }
      if current.Some? && current.value < |rules| { assert !BlocksAt(current, tickPenalty, current.value); }
    } else if current == Some(i) && tickPenalty > 0 {
      assert BlocksAt(current, tickPenalty, i);
      if i < k <= |rules| { assert !Clear(rules, current, tickPenalty, hyst, t, k); }
      assert !Clear(rules, current, tickPenalty, hyst, t, |rules|);
    } else {
      var p := if current == Some(i) then hyst else penalty;
      assert p == PenaltyAt(current, hyst, i);
      assert !BlocksAt(current, tickPenalty, i);
      if MatchesAt(rules, current, hyst, t, i) {
        if i < k <= |rules| { assert !Clear(rules, current, tickPenalty, hyst, t, k); }
        if current.Some? && i < current.value <= |rules| { assert !Clear(rules, current, tickPenalty, hyst, t, current.value); }
        if current.Some? && current.value < i { assert !BlocksAt(current, tickPenalty, current.value); }
        assert !Clear(rules, current, tickPenalty, hyst, t, |rules|);
      } else {
        assert Clear(rules, current, tickPenalty, hyst, t, i + 1);
        ScanMeaningFrom(rules, current, tickPenalty, hyst, t, i + 1, p, k);
        if k == i {
          assert !MatchesAt(rules, current, hyst, t, k);
        }
      }
    }
  }

  /**
   * What the scan of `set_fan_level` decides, stated without the loop:
   * the first rule that matches wins, each rule tested with the penalty
   * `PenaltyAt` gives it; the scan stops at the current rule instead when
   * the tick penalty has not run out and no hotter rule matches; and it
   * ends without a match only when no rule matches and none blocks.
   */
  lemma ScanMeaning(rules: seq<Rule>, current: Option<nat>, tickPenalty: nat, hyst: int, t: int, k: nat)
    ensures ScanAll(rules, current, tickPenalty, hyst, t) == Matched(k) <==>
      k < |rules| && Clear(rules, current, tickPenalty, hyst, t, k) &&
      !BlocksAt(current, tickPenalty, k) && MatchesAt(rules, current, hyst, t, k)
    ensures ScanAll(rules, current, tickPenalty, hyst, t) == Blocked <==>
      current.Some? && current.value < |rules| && tickPenalty > 0 &&
      Clear(rules, current, tickPenalty, hyst, t, current.value)
    ensures ScanAll(rules, current, tickPenalty, hyst, t) == Exhausted <==>
      Clear(rules, current, tickPenalty, hyst, t, |rules|)
  {
    ScanMeaningFrom(rules, current, tickPenalty, hyst, t, 0, 0, k);
  }

  /**
   * The sentinel makes the "No threshold matched?" path unreachable: the
   * "off" rule matches at every temperature, as long as the configured
   * hysteresis is above `TEMP_MIN` (its `threshold < penalty` test then
   * holds whichever penalty applies).
   */
  lemma NeverExhausted(rules: seq<Rule>, current: Option<nat>, tickPenalty: nat, hyst: int, t: int)
    requires |rules| > 0 && rules[|rules| - 1].threshold == TempMin
    requires hyst > TempMin
    ensures ScanAll(rules, current, tickPenalty, hyst, t) != Exhausted
  {
    ScanMeaning(rules, current, tickPenalty, hyst, t, 0);
    assert MatchesAt(rules, current, hyst, t, |rules| - 1);
  }

  /**
   * With a hysteresis of `TEMP_INVALID` configured, the scan can run off
   * the end of the table: the sentinel no longer matches when "off" is
   * current and the temperature is 1 degree or less.
   */
  lemma ExhaustedWithExtremeHysteresis()
    ensures ScanAll(DefaultRules, Some(FanOff), 0, TempInvalid, 0) == Exhausted
  {
    ScanMeaning(DefaultRules, Some(FanOff), 0, TempInvalid, 0, 0);
    assert Clear(DefaultRules, Some(FanOff), 0, TempInvalid, 0, |DefaultRules|) by {
      forall j | 0 <= j < |DefaultRules|
        ensures !MatchesAt(DefaultRules, Some(FanOff), TempInvalid, 0, j)
      {
        assert j == 0 || j == 1 || j == 2 || j == 3;
      }
    }
  }

  /**
   * Moving to a cooler rule needs both tiers of hysteresis to be spent:
   * the tick penalty is zero, and the temperature is at least the
   * hysteresis below the current rule's threshold.
   */
  lemma CoolingNeedsBothTiers(rules: seq<Rule>, c: nat, tickPenalty: nat, hyst: int, t: int, k: nat)
    requires c < k
    requires ScanAll(rules, Some(c), tickPenalty, hyst, t) == Matched(k)
    ensures tickPenalty == 0
    ensures !Matches(rules[c].threshold, hyst, t)
    ensures hyst <= rules[c].threshold && t <= rules[c].threshold - hyst
  {
    ScanMeaning(rules, Some(c), tickPenalty, hyst, t, k);
    assert !MatchesAt(rules, Some(c), hyst, t, c) && !BlocksAt(Some(c), tickPenalty, c);
  }

  /**
   * Heating is never delayed: once a rule hotter than the current one
   * matches on its plain threshold, the scan picks it (or one hotter
   * still), whatever the tick penalty.
   */
  lemma HeatingIsImmediate(rules: seq<Rule>, c: nat, tickPenalty: nat, hyst: int, t: int, j: nat)
    requires j < c && j < |rules|
    requires Matches(rules[j].threshold, 0, t)
    ensures ScanAll(rules, Some(c), tickPenalty, hyst, t).Matched?
    ensures ScanAll(rules, Some(c), tickPenalty, hyst, t).index <= j
  {
    var r := ScanAll(rules, Some(c), tickPenalty, hyst, t);
    ScanMeaning(rules, Some(c), tickPenalty, hyst, t, j);
    assert MatchesAt(rules, Some(c), hyst, t, j);
    if r.Matched? {
      ScanMeaning(rules, Some(c), tickPenalty, hyst, t, r.index);
    }
  }

  /**
   * A rule the scan has just chosen at temperature `t` is kept at that same
   * temperature: with it as the current rule, the scan stops at it (tick
   * penalty left) or matches it again. This needs a non-negative hysteresis.
   */
  lemma ChosenRuleIsStable(rules: seq<Rule>, current: Option<nat>, tickPenalty: nat, hyst: int, t: int,
                           k: nat, tickPenalty': nat)
    requires hyst >= 0
    requires ScanAll(rules, current, tickPenalty, hyst, t) == Matched(k)
    ensures ScanAll(rules, Some(k), tickPenalty', hyst, t) == if tickPenalty' > 0 then Blocked else Matched(k)
  {
    ScanMeaning(rules, current, tickPenalty, hyst, t, k);
    assert Clear(rules, Some(k), tickPenalty', hyst, t, k) by {
      forall j | 0 <= j < k
        ensures !MatchesAt(rules, Some(k), hyst, t, j) && !BlocksAt(Some(k), tickPenalty', j)
      {
        assert !MatchesAt(rules, current, hyst, t, j);
        if Matches(rules[j].threshold, 0, t) {
          MatchesMonotone(rules[j].threshold, 0, PenaltyAt(current, hyst, j), t, t);
        }
      }
    }
    assert MatchesAt(rules, Some(k), hyst, t, k) by {
      MatchesMonotone(rules[k].threshold, PenaltyAt(current, hyst, k), hyst, t, t);
    }
    ScanMeaning(rules, Some(k), tickPenalty', hyst, t, k);
  }

  /**
   * With the thresholds descending and no rule current, the scan picks the
   * band the temperature falls in: the rule that matches while the one
   * above it (if any) does not.
   */
  lemma FirstChoiceIsBand(rules: seq<Rule>, tickPenalty: nat, hyst: int, t: int, k: nat)
    requires Descending(rules)
    requires k < |rules|
    ensures ScanAll(rules, None, tickPenalty, hyst, t) == Matched(k) <==>
      Matches(rules[k].threshold, 0, t) && (k == 0 || !Matches(rules[k - 1].threshold, 0, t))
  {
    ScanMeaning(rules, None, tickPenalty, hyst, t, k);
    if Matches(rules[k].threshold, 0, t) && (k == 0 || !Matches(rules[k - 1].threshold, 0, t)) {
      assert Clear(rules, None, tickPenalty, hyst, t, k) by {
        forall j | 0 <= j < k
          ensures !MatchesAt(rules, None, hyst, t, j) && !BlocksAt(None, tickPenalty, j)
        {
          if j < k - 1 {
            assert rules[k - 1].threshold < rules[j].threshold;
          }
        }
      }
    }
    if k > 0 && ScanAll(rules, None, tickPenalty, hyst, t) == Matched(k) {
      assert !MatchesAt(rules, None, hyst, t, k - 1);
    }
  }
}

=== FILE: sensors.dfy ===
/**
 * The temperature side of the daemon: the sentinel values, the conversion
 * from millidegrees to degrees, the maximum over all sensor readings
 * (`get_max_temp`, zcfan.c:226-240) and the two name tests that decide
 * which hwmon files are read (zcfan.c:129-145, 165-170). Reading files is
 * not modelled: the readings and the contents of a `name` file are inputs.
 */
module Sensors {
  import opened Maybe

  /** The range of a C `int`. */
  const IntMin: int := -0x8000_0000
  const IntMax: int := 0x7fff_ffff

  /** `TEMP_INVALID`: the marker for "no usable reading" (`INT_MIN`). */
  const TempInvalid: int := IntMin
  /** `TEMP_MIN`: the threshold of the "off" rule, one above the marker. */
  const TempMin: int := IntMin + 1

  predicate IsCInt(n: int) {
    IntMin <= n <= IntMax
  }

  /** Every reading is a value a C `int` can hold, as `sscanf("%d")` yields. */
  ghost predicate AllCInts(readings: seq<int>) {
    forall i :: 0 <= i < |readings| ==> IsCInt(readings[i])
  }

  ghost predicate AllInvalid(readings: seq<int>) {
    forall i :: 0 <= i < |readings| ==> readings[i] == TempInvalid
  }

  /**
   * `MILLIC_TO_C(n)`, that is `n / 1000` in C, which truncates toward zero
   * (Dafny's own `/` rounds toward minus infinity for a negative `n`).
   */
  function MillicToC(n: int): (c: int)
    ensures n >= 0 ==> 0 <= c && c * 1000 <= n < c * 1000 + 1000
    ensures n < 0 ==> c <= 0 && c * 1000 - 1000 < n <= c * 1000
  {
    if n >= 0 then n / 1000 else -((-n) / 1000)
  }

  /**
   * The running maximum of `get_max_temp`'s loop: it starts from
   * `TEMP_INVALID` and takes `max(max_temp, temp)` for each reading in turn.
   */
  function MaxFold(readings: seq<int>): (m: int)
    ensures forall i :: 0 <= i < |readings| ==> readings[i] <= m
    ensures m == TempInvalid || exists i :: 0 <= i < |readings| && m == readings[i]
  {
    if |readings| == 0 then TempInvalid
    else
      var m := MaxFold(readings[..|readings| - 1]);
      var t := readings[|readings| - 1];
      if m > t then m else t
  }

  /** What `get_max_temp` returns: the marker, or the maximum in degrees. */
  function MaxTemp(readings: seq<int>): (t: int)
    ensures t != TempInvalid ==> exists i :: 0 <= i < |readings| && readings[i] != TempInvalid && t == MillicToC(readings[i])
    ensures forall i :: 0 <= i < |readings| && IsCInt(readings[i]) && readings[i] != TempInvalid ==> MillicToC(readings[i]) <= t
  {
    var m := MaxFold(readings);
    if m == TempInvalid then TempInvalid
    else
      assert forall i :: 0 <= i < |readings| && IsCInt(readings[i]) && readings[i] != TempInvalid ==> MillicToC(readings[i]) <= MillicToC(m) by {
        forall i | 0 <= i < |readings| && IsCInt(readings[i]) && readings[i] != TempInvalid {
          MillicToCMonotone(readings[i], m);
        }
      }
      MillicToC(m)
  }

  /** Truncating toward zero keeps the order of readings. */
  lemma MillicToCMonotone(a: int, b: int)
    requires a <= b
    ensures MillicToC(a) <= MillicToC(b)
  {
  }

  /** The fold is the largest reading, and it is the marker exactly when every reading is. */
  lemma {:induction false} MaxFoldIsMaximum(readings: seq<int>)
    requires AllCInts(readings)
    ensures MaxFold(readings) == TempInvalid <==> AllInvalid(readings)
    ensures forall i :: 0 <= i < |readings| ==> readings[i] <= MaxFold(readings)
    ensures |readings| > 0 ==> exists i :: 0 <= i < |readings| && MaxFold(readings) == readings[i]
  {
    if |readings| > 0 {
      var init := readings[..|readings| - 1];
      assert AllCInts(init) by {
        forall i | 0 <= i < |init| ensures IsCInt(init[i]) {
          assert init[i] == readings[i];
        }
      }
      MaxFoldIsMaximum(init);
      assert forall i :: 0 <= i < |init| ==> init[i] == readings[i];
      if MaxFold(init) <= readings[|readings| - 1] {
        assert MaxFold(readings) == readings[|readings| - 1];
      } else {
        var i :| 0 <= i < |init| && MaxFold(init) == init[i];
        assert MaxFold(readings) == readings[i];
      }
    }
  }

  /**
   * `get_max_temp` returns `TEMP_INVALID` exactly when no sensor gave a
   * reading (zero sensors included); otherwise it returns the largest
   * reading, converted to whole degrees, which lies well inside the range
   * the rule thresholds are compared with.
   */
  lemma MaxTempMeaning(readings: seq<int>)
    requires AllCInts(readings)
    ensures MaxTemp(readings) == TempInvalid <==> AllInvalid(readings)
    ensures !AllInvalid(readings) ==>
      exists i :: 0 <= i < |readings| && readings[i] != TempInvalid && MaxTemp(readings) == MillicToC(readings[i]) &&
        forall j :: 0 <= j < |readings| ==> readings[j] <= readings[i]
    ensures MaxTemp(readings) != TempInvalid ==> -2147483 <= MaxTemp(readings) <= 2147483
  {
    MaxFoldIsMaximum(readings);
    if !AllInvalid(readings) {
      var i :| 0 <= i < |readings| && MaxFold(readings) == readings[i];
      assert readings[i] != TempInvalid;
    }
  }

  /** `get_max_temp`: the maximum over all readings, in degrees, or the marker. */
  method GetMaxTemp(readings: seq<int>) returns (t: int)
    requires AllCInts(readings)
    ensures t == MaxTemp(readings)
    ensures t == TempInvalid <==> AllInvalid(readings)
  {
    var m := TempInvalid;
    for i := 0 to |readings|
      invariant m == MaxFold(readings[..i])
    {
      var temp := readings[i];
      assert readings[..i + 1][..i] == readings[..i];
      m := if m > temp then m else temp;
    }
    assert readings[..|readings|] == readings;
    MaxTempMeaning(readings);
    if m == TempInvalid {
      return TempInvalid;
    }
    return MillicToC(m);
  }

  /** `pat` occurs in `s` starting at index `i`. */
  predicate OccursAt(s: string, pat: string, i: int) {
    0 <= i && i + |pat| <= |s| && s[i..i + |pat|] == pat
  }

  /** `strstr(s, pat) != NULL`: `pat` occurs somewhere in `s`. */
  function HasSubstring(s: string, pat: string): (r: bool)
    ensures r <==> exists i :: OccursAt(s, pat, i)
    decreases |s|
  {
    if |pat| > |s| then false
    else if s[..|pat|] == pat then assert OccursAt(s, pat, 0); true
    else
      var r := HasSubstring(s[1..], pat);
      assert r ==> exists i :: OccursAt(s, pat, i) by {
        if r {
          var j :| OccursAt(s[1..], pat, j);
          assert s[j + 1..j + 1 + |pat|] == s[1..][j..j + |pat|];
          assert OccursAt(s, pat, j + 1);
        }
      }
      assert (exists i :: OccursAt(s, pat, i)) ==> r by {
        if exists i :: OccursAt(s, pat, i) {
          var i :| OccursAt(s, pat, i);
          assert i != 0;
          assert s[1..][i - 1..i - 1 + |pat|] == s[i..i + |pat|];
          assert OccursAt(s[1..], pat, i - 1);
        }
      }
      r
  }

  /**
   * The file-name filter of `add_sensor_fds` (zcfan.c:168-170): the name
   * starts with "temp" and contains "_input", which can then only begin
   * after the prefix.
   */
  function IsTempInputName(name: string): (r: bool)
    ensures r <==> (|name| >= 4 && name[..4] == "temp" && exists i :: 4 <= i && OccursAt(name, "_input", i))
  {
    var r := |name| >= 4 && name[..4] == "temp" && HasSubstring(name, "_input");
    assert r ==> exists i :: 4 <= i && OccursAt(name, "_input", i) by {
      if r {
        var i :| OccursAt(name, "_input", i);
        assert name[i..i + 6][0] == name[i];
      }
    }
    r
  }

  /** At most `SENSOR_NAME_MAX - 1` characters of a `name` file are read. */
  const SensorNameMax: int := 256

  /** The index of the first '\n' or NUL in `s`, or `|s|` when there is none. */
  function NameEnd(s: string): (k: nat)
    ensures k <= |s|
    ensures forall j :: 0 <= j < k ==> s[j] != '\n' && s[j] != '\0'
    ensures k < |s| ==> s[k] == '\n' || s[k] == '\0'
  {
    if |s| == 0 || s[0] == '\n' || s[0] == '\0' then 0
    else 1 + NameEnd(s[1..])
  }

  /**
   * The sensor name compared with the ignore list: what one read of the
   * file returns, cut at the first newline (`strcspn`) or NUL.
   */
  function SensorName(contents: string): (name: string)
    ensures |name| < SensorNameMax
    ensures name <= contents
    ensures '\n' !in name && '\0' !in name
    ensures |name| < |contents| && |name| < SensorNameMax - 1 ==>
      contents[|name|] == '\n' || contents[|name|] == '\0'
  {
    var window := if |contents| < SensorNameMax - 1 then contents else contents[..SensorNameMax - 1];
    window[..NameEnd(window)]
  }

  /**
   * `is_sensor_name_ignored`: `contents` is `None` when the `name` file
   * could not be opened or read; an empty file is never ignored.
   */
  method IsSensorNameIgnored(contents: Option<string>, ignored: seq<string>) returns (r: bool)
    ensures r <==> contents.Some? && |contents.value| > 0 && SensorName(contents.value) in ignored
  {
    if contents.None? || |contents.value| == 0 {
      return false;
    }
    var name := SensorName(contents.value);
    for i := 0 to |ignored|
      invariant name !in ignored[..i]
    {
      if name == ignored[i] {
        return true;
      }
    }
    assert ignored[..|ignored|] == ignored;
    return false;
  }
}

=== FILE: sink.dfy ===
/**
 * The fan control file `/proc/acpi/ibm/fan` as the daemon uses it
 * (`write_fan`, zcfan.c:244-271, and `write_watchdog_timeout`,
 * zcfan.c:273-279). Opening, `fprintf` and `fclose` are abstracted: each
 * write is told by a `SinkResponse` whether it reached the controller and
 * what the monotonic clock read afterwards.
 */
module Sink {
  import opened Clock

  /** One `write_fan(command, value)`: the text "command value". */
  datatype Command = Command(name: string, value: string)

  /**
   * What the controller and the clock answer to one write: `ok` is false
   * when the file could not be opened or `fprintf` failed; `at` is the
   * `CLOCK_MONOTONIC` reading taken after a successful write.
   */
  datatype SinkResponse = SinkResponse(ok: bool, at: Timespec)

  function DigitChar(d: nat): (c: char)
    requires d < 10
    ensures '0' <= c <= '9' && c as int - '0' as int == d
  {
    ('0' as int + d) as char
  }

  predicate AllDigits(s: string) {
    forall i :: 0 <= i < |s| ==> '0' <= s[i] <= '9'
  }

  /** The decimal text `snprintf("%" PRIuMAX)` produces for a timeout. */
  function DecimalText(n: nat): (s: string)
    ensures 1 <= |s| && AllDigits(s)
    ensures n < 10 <==> |s| == 1
    ensures n < 1000 ==> |s| <= 3
    decreases n
  {
    if n < 10 then [DigitChar(n)] else DecimalText(n / 10) + [DigitChar(n % 10)]
  }

  /** The number a string of decimal digits denotes, as the kernel reads it back. */
  function DecimalValue(s: string): nat
    requires AllDigits(s)
    decreases |s|
  {
    if s == [] then 0
    else DecimalValue(s[..|s| - 1]) * 10 + (s[|s| - 1] as int - '0' as int)
  }

  /** The text written after "watchdog" denotes exactly the timeout. */
  lemma {:induction false} DecimalRoundTrip(n: nat)
    ensures DecimalValue(DecimalText(n)) == n
    decreases n
  {
    if n >= 10 {
      DecimalRoundTrip(n / 10);
      var s := DecimalText(n);
      assert s[..|s| - 1] == DecimalText(n / 10);
    }
  }

  /** The state the daemon keeps about the control file, and what it has written to it. */
  class ControlSink {
    /** `fan_control_fp != NULL`. */
    var isOpen: bool
    /** Every `write_fan` call, in order. */
    var log: seq<Command>
    /** `last_watchdog_ping`: the time of the last successful write of any kind. */
    var lastPing: Timespec

    constructor()
      ensures !isOpen && log == [] && lastPing == Zero
    {
      isOpen := false;
      log := [];
      lastPing := Zero;
    }

    /**
     * `write_fan`: a failed open or write leaves the file closed and the
     * ping time alone; a successful one keeps the file open and records
     * the time as the last ping, whatever the command was.
     */
    method WriteFan(name: string, value: string, resp: SinkResponse) returns (ok: bool)
      modifies this
      ensures ok == resp.ok
      ensures log == old(log) + [Command(name, value)]
      ensures isOpen == resp.ok
      ensures lastPing == if resp.ok then resp.at else old(lastPing)
    {
      log := log + [Command(name, value)];
      if !resp.ok {
        isOpen := false;
        return false;
      }
      isOpen := true;
      lastPing := resp.at;
      return true;
    }

    /**
     * `write_watchdog_timeout`: the timeout must print in at most three
     * digits, the size of the buffer sized for "120".
     */
    method WriteWatchdogTimeout(timeout: nat, resp: SinkResponse)
      requires timeout < 1000
      modifies this
      ensures log == old(log) + [Command("watchdog", DecimalText(timeout))]
      ensures isOpen == resp.ok
      ensures lastPing == if resp.ok then resp.at else old(lastPing)
    {
      var text := DecimalText(timeout);
      var _ := WriteFan("watchdog", text, resp);
    }

    /** Closing the file at exit, if it is open: nothing is written and the ping time stays. */
    method Close()
      modifies this
      ensures !isOpen
      ensures log == old(log) && lastPing == old(lastPing)
    {
      if isOpen {
        isOpen := false;
      }
    }
  }
}

=== FILE: suspend.dfy ===
/**
 * Suspend detection (`detect_suspend`, zcfan.c:92-114): `CLOCK_MONOTONIC`
 * stops while the machine sleeps and `CLOCK_BOOTTIME` does not, so a
 * boot-time delta well above the monotonic one means a suspend happened
 * between two calls. The clock readings are parameters.
 */
module Suspend {
  import opened Clock

  /** `THRESHOLD_NS`: 0.2 seconds of slack between the two clocks. */
  const ThresholdNs: int := 200_000_000

  /** `enum resume_state`. */
  datatype ResumeState = ResumeNotDetected | ResumeDetected

  /** The comparison of zcfan.c:111: boot time advanced more than 0.2 s beyond monotonic time. */
  predicate ClockJump(monotonicPrev: Timespec, boottimePrev: Timespec, monotonicNow: Timespec, boottimeNow: Timespec) {
    DiffNs(boottimePrev, boottimeNow) > DiffNs(monotonicPrev, monotonicNow) + ThresholdNs
  }

  /**
   * The answer of one call. A zero monotonic baseline means no earlier
   * call (static storage starts zeroed), and then nothing is detected;
   * on every later call a resume is reported exactly when the time spent
   * suspended, the part of boot time that monotonic time did not see,
   * exceeds 0.2 s.
   */
  function Detect(monotonicPrev: Timespec, boottimePrev: Timespec, monotonicNow: Timespec, boottimeNow: Timespec): (r: ResumeState)
    ensures r == ResumeDetected <==>
      monotonicPrev != Zero &&
      (TotalNs(boottimeNow) - TotalNs(boottimePrev)) - (TotalNs(monotonicNow) - TotalNs(monotonicPrev)) > ThresholdNs
  {
    if monotonicPrev == Zero then ResumeNotDetected
    else if ClockJump(monotonicPrev, boottimePrev, monotonicNow, boottimeNow) then ResumeDetected
    else ResumeNotDetected
  }

  /**
   * Both clocks advancing by one second is not a resume; boot time
   * advancing by 301 seconds over one monotonic second is.
   */
  lemma DetectExamples()
    ensures Detect(Timespec(100, 0), Timespec(100, 0), Timespec(101, 0), Timespec(101, 0)) == ResumeNotDetected
    ensures Detect(Timespec(100, 0), Timespec(100, 0), Timespec(101, 0), Timespec(401, 0)) == ResumeDetected
    ensures Detect(Zero, Zero, Timespec(101, 0), Timespec(401, 0)) == ResumeNotDetected
  {
  }

  /** The two previous readings, the function-static `monotonic_prev` and `boottime_prev`. */
  class SuspendDetector {
    var monotonicPrev: Timespec
    var boottimePrev: Timespec

    constructor()
      ensures monotonicPrev == Zero && boottimePrev == Zero
    {
      monotonicPrev := Zero;
      boottimePrev := Zero;
    }

    /** `detect_suspend`: the readings become the baseline on every call, the first one included. */
    method DetectSuspend(monotonicNow: Timespec, boottimeNow: Timespec) returns (r: ResumeState)
      modifies this
      ensures r == Detect(old(monotonicPrev), old(boottimePrev), monotonicNow, boottimeNow)
      ensures monotonicPrev == monotonicNow && boottimePrev == boottimeNow
    {
      if monotonicPrev == Zero {
        monotonicPrev := monotonicNow;
        boottimePrev := boottimeNow;
        return ResumeNotDetected;
      }
      var deltaMonotonic := DiffNs(monotonicPrev, monotonicNow);
      var deltaBoottime := DiffNs(boottimePrev, boottimeNow);
      monotonicPrev := monotonicNow;
      boottimePrev := boottimeNow;
      r := if deltaBoottime > deltaMonotonic + ThresholdNs then ResumeDetected else ResumeNotDetected;
    }
  }
}

=== FILE: watchdog.dfy ===
/**
 * The watchdog keep-alive rule: the accepted range of `watchdog_secs`
 * (zcfan.c:405-412) and the test that decides when to refresh
 * (zcfan.c:343-346).
 */
module Watchdog {
  import opened Clock
  import opened Sink

  /** `WATCHDOG_GRACE_PERIOD_SECS`. */
  const GracePeriodSecs: int := 2
  /** `DEFAULT_WATCHDOG_SECS`, also the largest value the kernel accepts. */
  const DefaultWatchdogSecs: int := 120

  datatype ConfigResult = Accepted(secs: nat) | OutOfRange

  /**
   * The start-up check of `watchdog_secs`: a value outside [2, 120] is
   * fatal; an accepted one leaves a non-negative refresh margin and prints
   * in the three characters `write_watchdog_timeout` has room for.
   */
  function CheckWatchdogSecs(secs: int): (r: ConfigResult)
    ensures r.Accepted? <==> GracePeriodSecs <= secs <= DefaultWatchdogSecs
    ensures r.Accepted? ==> r.secs == secs && r.secs - GracePeriodSecs >= 0 && |DecimalText(r.secs)| <= 3
  {
    if secs < GracePeriodSecs || secs > DefaultWatchdogSecs then OutOfRange else Accepted(secs)
  }

  predicate ValidWatchdogSecs(secs: int) {
    CheckWatchdogSecs(secs).Accepted?
  }

  /**
   * A refresh is due once the whole seconds since the last ping reach
   * `watchdog_secs - 2`. The test looks at whole seconds only: when it
   * fires, more than `watchdog_secs - 3` real seconds have passed; when it
   * does not, fewer than `watchdog_secs - 2`. So the refresh can come up
   * to a second early.
   */
  predicate PingDue(now: Timespec, lastPing: Timespec, watchdogSecs: int)
    ensures NormalTimespec(now) && NormalTimespec(lastPing) && PingDue(now, lastPing, watchdogSecs) ==>
      DiffNs(lastPing, now) > (watchdogSecs - GracePeriodSecs - 1) * NsInSec
    ensures NormalTimespec(now) && NormalTimespec(lastPing) && !PingDue(now, lastPing, watchdogSecs) ==>
      DiffNs(lastPing, now) < (watchdogSecs - GracePeriodSecs) * NsInSec
  {
    !(now.sec - lastPing.sec < watchdogSecs - GracePeriodSecs)
  }

  predicate NormalTimespec(t: Timespec) {
    0 <= t.nsec < NsInSec
  }

  /** 117 seconds and a nanosecond after the last ping, a 120-second watchdog is already refreshed. */
  lemma PingCanComeEarly()
    ensures PingDue(Timespec(128, 0), Timespec(10, 999_999_999), 120)
    ensures DiffNs(Timespec(10, 999_999_999), Timespec(128, 0)) < (120 - GracePeriodSecs) * NsInSec
  {
  }
}
